=== FILE: README.md ===
# Keep-alive service model

A Dafny model of the `KeepAliveService` of the Collaboard whiteboard frontend
(`frontend/keepalive.js`): a small scheduler that keeps a free-tier backend
warm by POSTing to `{apiUrl}/api/ping` every `interval` milliseconds, probes
`{apiUrl}/api/health` on demand, records when the last ping succeeded and when
the next one is expected, and tells registered callbacks about pings, health
updates and errors.

The service is modelled as a functional state machine. `KeepAlive.Service` is
an immutable record of the object's fields; every operation takes it by value
together with what the environment supplies and returns the new service and a
trace of `Effect`s (requests issued, timers armed or cleared, callbacks
invoked, promises rejected), in the order they happen.

- The network is an input: `Outcome` is `TransportFailure` (fetch rejects) or
  `Response(status, body)`, where `body` is `None` when `response.json()`
  rejects and `Some(JNull)` for the literal JSON `null`.
- The clock is an input: `Clock(first, second)` holds the two separate
  `Date.now()` readings of a successful ping (lines 70 and 71).
- A timer is an opaque positive handle, the value `setInterval` returns; a
  firing of the timer is the stimulus `Page.FireTimer`.
- A callback is a `Listener(id, throws)`: its identity and whether calling it
  throws. `forEach` stops at the first callback that throws. A ping or
  health listener's exception is thrown inside the `try` and handled like
  any other failure there. An error listener's exception is thrown inside
  the catch block, escapes it, and rejects the operation's promise.

Files: `wrappers.dfy` (Option), `events.dfy` (outcomes, errors, events,
effects), `listeners.dfy` (callback lists and `forEach`), `keepalive.dfy`
(the class), `page.dfy` (timer firing, the visibility rule, runs of
stimuli), `properties.dfy` (lemmas relating several calls).

## Edge cases of the ping

- A 2xx response whose body is the JSON `null` stamps `lastPingTime` at
  line 70. Then reading `data.nextPing` at line 71 throws a TypeError. The
  catch block hands that error to the error listeners, so a ping that fails
  still moves `lastPingTime`
  (`KeepAliveProperties.NullPingBodyStampsAndFails`).
- Line 71 uses `||`, so a `nextPing` of 0 falls back to `now + interval`
  just as a missing one does (`KeepAliveProperties.ZeroHintFallsBack`).

## Model

| member | source | states |
|---|---|---|
| KeepAlive.New | frontend/keepalive.js:3-16 | a falsy interval (omitted or 0) becomes 600000 and any other is kept; a falsy apiUrl (omitted or empty) becomes the page origin; the endpoints are apiUrl + "/api/ping" and apiUrl + "/api/health"; the service starts inactive, timer-free, with no ping times and three empty listener lists, and satisfies the state invariant |
| KeepAlive.Start | frontend/keepalive.js:22-38 | on an active service nothing happens and nothing is emitted; on an inactive one the service becomes active holding the new timer, the trace is the ping request, then one timer armed with period `interval`, then exactly the notifications of that ping (one request and one timer in all), and the resulting state is what a plain ping would give plus the activation |
| KeepAlive.CompletionIgnoresLifecycle | frontend/keepalive.js:28-37 | completing a ping gives the same times and notifications whether or not the service was marked active and armed first, so start's order (mark active, ping, arm) does not affect what the ping records |
| KeepAlive.Stop | frontend/keepalive.js:41-53 | on an inactive service nothing happens; on an active one it becomes inactive with no timer, everything else unchanged, and the held timer is cleared exactly once; it never issues a request or arms a timer |
| KeepAlive.PingData | frontend/keepalive.js:69-83 | once a 2xx body is parsed, lastPingTime is the first clock reading and only the two times change; a `null` body keeps nextPingTime and tells the error listeners of the null dereference; otherwise nextPingTime is the truthy `nextPing` or second reading + interval, and with no throwing ping listener every ping listener is told once in order; nothing rejects unless an error listener throws |
| KeepAlive.PingCompletion | frontend/keepalive.js:65-83 | once the fetch settles only the two ping times may change; nothing changes unless a 2xx body was parsed; a parsed body stamps lastPingTime with the first clock reading; the times on success and the listener calls are those of a parsed body, and every failure (transport, status, parse, `null` body) goes to the catch block with its classified error |
| KeepAlive.Ping | frontend/keepalive.js:56-84 | the first effect is one POST with a JSON content type to the ping endpoint; only the ping times can change; on success lastPingTime is the first reading and nextPingTime the truthy `nextPing` or else second reading + interval; on a failure before the ping listeners run (transport, status, parse, `null` body) nextPingTime is kept; success tells every ping listener once in order with the payload and no error listener; failure tells every error listener once in order with the classified error; nothing rejects unless an error listener throws |
| KeepAlive.HealthCaught | frontend/keepalive.js:107-111 | the catch block is the same forEach-then-reject as ping's: the error listeners are told in order up to and including the first that throws, whose error then rejects the call; the call resolves to `null` exactly when no error listener throws |
| KeepAlive.HealthData | frontend/keepalive.js:100-111 | once a 2xx health body is parsed, with no throwing health listener every health listener is told once in order and the call resolves to the payload; a throwing health listener leads to a `null` result when no error listener throws; the promise rejects only when an error listener throws |
| KeepAlive.HealthCompletion | frontend/keepalive.js:96-111 | success tells every health listener in order and resolves to the payload; a failed response tells only the error listeners and resolves to `null`; a health listener that throws also leads to a `null` result when no error listener throws; the promise rejects only when an error listener throws |
| KeepAlive.GetHealth | frontend/keepalive.js:87-111 | issues one GET with a JSON content type to the health endpoint, then behaves as its completion, including the `null` result after a throwing health listener; it returns no new service, so it changes no state |
| KeepAlive.GetStatus | frontend/keepalive.js:130-137 | on a valid service the reported activity is true exactly when a recurring timer is held; that the interval and ping times are reported whatever the activity is stated by `KeepAliveProperties.StatusAfterStop` and `KeepAliveProperties.StatusAfterDeliveredPing` |
| KeepAlive.OnPing | frontend/keepalive.js:115-117 | appends the listener to the end of the ping list; the error and health lists and every other field are unchanged |
| KeepAlive.OnError | frontend/keepalive.js:120-122 | appends the listener to the end of the error list; the other two lists and every other field are unchanged |
| KeepAlive.OnHealthUpdate | frontend/keepalive.js:125-127 | appends the listener to the end of the health list; the other two lists and every other field are unchanged |
| Listeners.Notify | frontend/keepalive.js:76 | forEach invokes listeners in registration order with the same argument; it invokes all of them (and equals the reference list of calls) exactly when none throws, and otherwise stops right after the first that throws, reporting it |
| Listeners.NotifyStopsAtFirstThrower | frontend/keepalive.js:76-82 | with non-throwing listeners before a throwing one, forEach calls exactly those and the thrower, and reports the thrower |
| Listeners.Caught | frontend/keepalive.js:78-83 | the catch block emits only notifications; with no throwing error listener it is exactly one call per error listener in order; otherwise it calls the error listeners up to and including the first that throws, and then the promise rejects with that listener's error |
| Page.FireTimer | frontend/keepalive.js:35-37 | a firing of the held timer is exactly a ping; any other handle (a cleared timer) does nothing; a firing issues at most one request and arms nothing |
| Page.OnVisibilityChange | frontend/keepalive.js:157-168 | while hidden nothing happens; once visible the service is always active: an inactive one is started, on an active one the result is exactly one ping, with its state and its listener calls: the timer is kept, one request is issued and no timer is armed; the state invariant is kept |
| Page.StartKeepsOneTimer | frontend/keepalive.js:22-38 | from a valid service the timers armed and not cleared after start are exactly the one the service holds |
| Page.ApplyKeepsOneTimer | frontend/keepalive.js:22-168 | every stimulus (start, stop, ping, health probe, registration, timer firing, visibility change) keeps the invariant "active iff a timer is held" and keeps the set of armed, uncleared timers equal to the held one |
| Page.RunKeepsOneTimer | frontend/keepalive.js:22-168 | the same holds over any sequence of stimuli |
| Page.AtMostOneTimer | frontend/keepalive.js:3-168 | from construction, whatever the page does, at most one recurring timer is armed at a time, and one is armed exactly while the service is active |
| KeepAliveProperties.StartTwiceIsOneStart | frontend/keepalive.js:22-26 | a second start is a no-op: over both calls one request and one timer, and the first timer is kept |
| KeepAliveProperties.StartThenStop | frontend/keepalive.js:22-53 | start then stop returns to an inactive, timer-free service that differs from the original only by the first ping's record, and stop clears exactly the timer start armed, leaving no timer armed |
| KeepAliveProperties.StopTwiceIsOneStop | frontend/keepalive.js:41-45 | a second stop changes nothing and emits nothing |
| KeepAliveProperties.FallbackWithinTolerance | frontend/keepalive.js:70-71 | without a usable hint, nextPingTime − lastPingTime is interval plus the gap between the two clock readings, and exactly interval when they coincide |
| KeepAliveProperties.ZeroHintFallsBack | frontend/keepalive.js:71 | a `nextPing` of 0 falls back to second reading + interval |
| KeepAliveProperties.NullPingBodyStampsAndFails | frontend/keepalive.js:69-71 | a 2xx `null` body stamps lastPingTime, keeps everything else, and tells the error listeners of the null dereference |
| KeepAliveProperties.ThrowingPingListener | frontend/keepalive.js:70-82 | a throwing ping listener cuts the ping listeners short after itself and its exception goes to the catch block (error listeners up to any thrower, then a rejection); the ping time is already stamped |
| KeepAliveProperties.ThrowingErrorListenerRejects | frontend/keepalive.js:78-83 | on a failed ping, the error listeners up to and including the first that throws are told, in order, and then the ping's promise rejects with that listener's error |
| KeepAliveProperties.ThrowingHealthListener | frontend/keepalive.js:100-110 | a health listener that throws on a 2xx response cuts the health listeners short after itself and its exception goes to the catch block; getHealth resolves to `null` exactly when no error listener throws |
| KeepAliveProperties.FailedHealthGoesToCatch | frontend/keepalive.js:96-110 | a failed health response (transport, status, parse) leaves, after the GET, exactly the catch block with its classified error, and resolves to `null` exactly when no error listener throws |
| KeepAliveProperties.RegisteredListenerIsCalledLast | frontend/keepalive.js:115-117 | a listener registered with onPing is called after all earlier ones on a successful ping, and the earlier calls are unchanged |
| KeepAliveProperties.RegistrationOrderABA | frontend/keepalive.js:115-117 | registering A, B, A yields the calls A, B, A after the request: no deduplication |
| KeepAliveProperties.RegistrationTouchesOneList | frontend/keepalive.js:115-127 | a registration changes exactly the list of its kind and nothing else |
| KeepAliveProperties.HealthNullIsAmbiguous | frontend/keepalive.js:100-110 | a successful `null` health payload and a failure both resolve to `null`, so the caller cannot tell them apart |
| KeepAliveProperties.HealthTellsOneList | frontend/keepalive.js:103-109 | after the request, getHealth tells only error listeners on failure and only health listeners on success |
| KeepAliveProperties.StatusAfterSuccessfulStart | frontend/keepalive.js:130-137 | after starting on a successful ping the status snapshot reports active, the configured interval, the first clock reading and the expected next ping |
| KeepAliveProperties.FailedPingKeepsStatus | frontend/keepalive.js:65-67 | a ping that gets no parsed 2xx body leaves the status snapshot unchanged |
| KeepAliveProperties.StatusAfterStop | frontend/keepalive.js:130-137 | after stop the snapshot differs from the one before only in reporting inactive: the interval and both ping times are still reported |
| KeepAliveProperties.StatusAfterDeliveredPing | frontend/keepalive.js:130-137 | after a ping whose 2xx body was parsed, active or not, the snapshot reports the same activity and interval and the first clock reading as the last ping time |
| KeepAliveProperties.OneSession | frontend/keepalive.js:3-53 | with interval 1000 and apiUrl "http://x" the ping endpoint is "http://x/api/ping"; start pings once and arms a 1000 ms timer; the timer's firing pings once more; stop clears that timer; a later firing of it does nothing |

## Left out

- Page-load glue (lines 140-154): the global instance and the auto-start on
  `DOMContentLoaded`/`readyState`; it only calls the constructor and `start`.
- `frontend/config.js`, `backend/config/db.js` and `api/index.js`: environment
  and server bootstrap glue with no behaviour of the service.
- Overlapping asynchronous pings (a manual ping racing a timer ping, last
  writer wins): each ping is one atomic transition on a given outcome.
- Real time: when the timer fires and how long a fetch takes are not modelled;
  a firing is a stimulus and the clock readings are parameters.
- Console logging (lines 18, 24, 29, 43, 52, 73, 79, 108, 161, 165) has no effect on
  state and is not modelled; neither is the text of the `Error` messages,
  which the model names by status code and operation.
- Callbacks are opaque: what a callback does besides returning or throwing
  (for instance calling back into the service) is not modelled.
- JavaScript numbers other than integers: `interval` and `nextPing` are
  integers, so NaN, fractions and non-numeric truthy values (a string
  `nextPing`, which `||` would keep) are not modelled.
- `new KeepAliveService(null)`, which throws on `config.interval`, is not
  modelled: the configuration is always an object with optional fields.

=== FILE: events.dfy ===
/**
 The vocabulary the keep-alive service shares with its environment: the
 network outcomes it is given, the errors it constructs, the events it hands
 to listeners, and the observable effects it leaves behind.
 */
module Events {
  import opened Wrappers

  /** Identifies one registered callback. */
  type ListenerId = nat

  /** A handle returned by setInterval: the HTML standard makes it an integer
      greater than zero, so it is always truthy. */
  type TimerHandle = h: int | h > 0 witness 1

  /** A registered callback: its identity, and whether calling it throws. */
  datatype Listener = Listener(id: ListenerId, throws: bool)

  /** A parsed JSON response body: the literal `null`, or any other value, of
      which the service only ever reads the numeric `nextPing` member (None when
      that member is absent or null). `rest` stands for everything else in it. */
  datatype Json = JNull | JValue(nextPing: Option<int>, rest: string)

  /** What a fetch settles to: the request itself fails, or a response arrives
      with a status and a body that parses (Some) or not (None). */
  datatype Outcome = TransportFailure | Response(status: int, body: Option<Json>)

  /** `response.ok`: the status lies in the 2xx range. */
  predicate IsOk(status: int) {
    200 <= status <= 299
  }

  datatype Operation = PingOp | HealthOp

  /** The errors handed to error listeners (or thrown out of an operation). */
  datatype Error =
    | StatusError(op: Operation, status: int)  // "Ping failed with status: …" / "Health check failed with status: …"
    | NetworkError                             // fetch itself rejected
    | ParseError                               // response.json() rejected
    | NullBodyError                            // reading `nextPing` of a `null` body
    | ListenerError(listener: ListenerId)      // whatever a throwing callback threw

  datatype Event = PingEvent(data: Json) | ErrorEvent(error: Error) | HealthEvent(data: Json)

  datatype HttpMethod = Get | Post

  const JsonContentType: string := "application/json"

  /** One observable effect of an operation, in the order it happens. */
  datatype Effect =
    | Fetch(verb: HttpMethod, url: string, contentType: string)
    | SetInterval(handle: TimerHandle, period: int)
    | ClearInterval(handle: TimerHandle)
    | Invoke(listener: ListenerId, event: Event)
    | Rejected(error: Error)  // the operation's promise rejected with this error

  /** Effects that only notify: callback invocations and rejections. */
  predicate Notifications(t: seq<Effect>) {
    forall k :: 0 <= k < |t| ==> t[k].Invoke? || t[k].Rejected?
  }

  /** No effect of the trace is a rejection: the operation settles normally. */
  predicate Resolves(t: seq<Effect>) {
    forall k :: 0 <= k < |t| ==> !t[k].Rejected?
  }

  /** Number of HTTP requests issued in a trace. */
  function Fetches(t: seq<Effect>): nat {
    if t == [] then 0 else (if t[0].Fetch? then 1 else 0) + Fetches(t[1..])
  }

  /** Number of recurring timers armed in a trace. */
  function Arms(t: seq<Effect>): nat {
    if t == [] then 0 else (if t[0].SetInterval? then 1 else 0) + Arms(t[1..])
  }

  lemma {:induction false} CountsAppend(a: seq<Effect>, b: seq<Effect>)
    ensures Fetches(a + b) == Fetches(a) + Fetches(b)
    ensures Arms(a + b) == Arms(a) + Arms(b)
  {
    if a != [] {
      assert (a + b)[1..] == a[1..] + b;
      CountsAppend(a[1..], b);
    } else {
      assert a + b == b;
    }
  }

  lemma {:induction false} NotificationsIssueNothing(t: seq<Effect>)
    requires Notifications(t)
    ensures Fetches(t) == 0 && Arms(t) == 0
  {
    if t != [] {
      assert Notifications(t[1..]) by {
        forall k | 0 <= k < |t[1..]| ensures t[1..][k].Invoke? || t[1..][k].Rejected? {
          assert t[1..][k] == t[k + 1];
        }
      }
      NotificationsIssueNothing(t[1..]);
    }
  }
}

=== FILE: keepalive.dfy ===
/**
 The KeepAliveService of frontend/keepalive.js as a functional state machine.
 Every operation takes the service by value, together with what the outside
 world supplies (the network outcome, the clock readings, the timer handle),
 and returns the new service with the trace of effects the call produced.
 Each ping is one atomic transition on a given outcome.
 */
module KeepAlive {
  import opened Wrappers
  import opened Events
  import opened Listeners

  /** Ten minutes in milliseconds, the default interval (line 4). */
  const DefaultInterval: int := 10 * 60 * 1000
  const PingPath: string := "/api/ping"
  const HealthPath: string := "/api/health"

  /** The constructor's options; None is an omitted (undefined) option. */
  datatype Config = Config(interval: Option<int>, apiUrl: Option<string>)

  datatype Service = Service(
    interval: int,
    apiUrl: string,
    pingEndpoint: string,
    healthEndpoint: string,
    timerId: Option<TimerHandle>,
    isActive: bool,
    lastPingTime: Option<int>,
    nextPingTime: Option<int>,
    callbacks: Callbacks)

  /** The two separate readings of Date.now() a successful ping takes
      (lines 70 and 71). */
  datatype Clock = Clock(first: int, second: int)

  datatype Step = Step(service: Service, trace: seq<Effect>)

  /** What getHealth leaves behind: its effects, and the value its promise
      resolves to (None when the promise rejects). */
  datatype Probe = Probe(trace: seq<Effect>, resolved: Option<Json>)

  datatype Status = Status(isActive: bool, interval: int, lastPingTime: Option<int>, nextPingTime: Option<int>)

  /** The state invariant: a timer is held exactly while active, and the
      endpoints are derived from the base URL. */
  predicate Valid(s: Service) {
    && (s.isActive <==> s.timerId.Some?)
    && s.pingEndpoint == s.apiUrl + PingPath
    && s.healthEndpoint == s.apiUrl + HealthPath
  }

  /** Everything but the two ping times is the same. */
  predicate SameButTimes(s: Service, s': Service) {
    s' == s.(lastPingTime := s'.lastPingTime, nextPingTime := s'.nextPingTime)
  }

  /** JavaScript truthiness of an optional number and an optional string. */
  predicate TruthyInt(x: Option<int>) { x.Some? && x.value != 0 }
  predicate TruthyString(x: Option<string>) { x.Some? && x.value != "" }

  /** `x || d` for numbers and for strings. */
  function IntOr(x: Option<int>, d: int): int {
    if TruthyInt(x) then x.value else d
  }
  function StringOr(x: Option<string>, d: string): string {
    if TruthyString(x) then x.value else d
  }

  /** The constructor; `origin` stands for window.location.origin. */
  function New(config: Config, origin: string): (s: Service)
    ensures Valid(s)
    ensures TruthyInt(config.interval) ==> s.interval == config.interval.value
    ensures !TruthyInt(config.interval) ==> s.interval == DefaultInterval
    ensures s.interval != 0
    ensures TruthyString(config.apiUrl) ==> s.apiUrl == config.apiUrl.value
    ensures !TruthyString(config.apiUrl) ==> s.apiUrl == origin
    ensures s.pingEndpoint == s.apiUrl + "/api/ping" && s.healthEndpoint == s.apiUrl + "/api/health"
    ensures !s.isActive && s.timerId == None
    ensures s.lastPingTime == None && s.nextPingTime == None
    ensures s.callbacks == Callbacks([], [], [])
  {
    var apiUrl := StringOr(config.apiUrl, origin);
    Service(
      interval := IntOr(config.interval, DefaultInterval),
      apiUrl := apiUrl,
      pingEndpoint := apiUrl + PingPath,
      healthEndpoint := apiUrl + HealthPath,
      timerId := None,
      isActive := false,
      lastPingTime := None,
      nextPingTime := None,
      callbacks := Callbacks([], [], []))
  }

  /** The request a ping issues: a POST with a JSON content type. */
  function PingRequest(s: Service): Effect {
    Fetch(Post, s.pingEndpoint, JsonContentType)
  }

  function HealthRequest(s: Service): Effect {
    Fetch(Get, s.healthEndpoint, JsonContentType)
  }

  /** The outcome carries a parsed 2xx body. */
  predicate Delivered(o: Outcome) {
    o.Response? && IsOk(o.status) && o.body.Some?
  }

  /** Independent classification of the error a ping outcome raises before any
      listener runs (None: the ping succeeds). */
  function PingFailure(o: Outcome): Option<Error> {
    if o.TransportFailure? then Some(NetworkError)
    else if !IsOk(o.status) then Some(StatusError(PingOp, o.status))
    else if o.body.None? then Some(ParseError)
    else if o.body.value.JNull? then Some(NullBodyError)
    else None
  }

  /** Independent classification of the error a health outcome raises before
      any listener runs; a `null` body is not an error there. */
  function HealthFailure(o: Outcome): Option<Error> {
    if o.TransportFailure? then Some(NetworkError)
    else if !IsOk(o.status) then Some(StatusError(HealthOp, o.status))
    else if o.body.None? then Some(ParseError)
    else None
  }

  /** What happens once a 2xx ping response has been parsed to `data`
      (lines 69-76, and the catch block for what they throw). */
  function PingData(s: Service, data: Json, clock: Clock): (r: Step)
    ensures SameButTimes(s, r.service)
    ensures Notifications(r.trace)
    ensures r.service.lastPingTime == Some(clock.first)
    ensures data.JNull? ==> r == Step(s.(lastPingTime := Some(clock.first)), Caught(s.callbacks.onError, NullBodyError))
    ensures data.JValue? && TruthyInt(data.nextPing) ==> r.service.nextPingTime == data.nextPing
    ensures data.JValue? && !TruthyInt(data.nextPing) ==> r.service.nextPingTime == Some(clock.second + s.interval)
    ensures data.JValue? && NoneThrow(s.callbacks.onPing) ==> r.trace == Calls(s.callbacks.onPing, PingEvent(data))
    ensures NoneThrow(s.callbacks.onError) ==> Resolves(r.trace)
  {
    var stamped := s.(lastPingTime := Some(clock.first));
    match data
    case JNull => Step(stamped, Caught(s.callbacks.onError, NullBodyError))
    case JValue(nextPing, _) =>
      var updated := stamped.(nextPingTime := Some(IntOr(nextPing, clock.second + s.interval)));
      var n := Notify(s.callbacks.onPing, PingEvent(data));
      match n.thrown
      case None => Step(updated, n.trace)
      case Some(id) => Step(updated, n.trace + Caught(s.callbacks.onError, ListenerError(id)))
  }

  /** What happens once the ping's fetch settles (lines 65-83). */
  function PingCompletion(s: Service, o: Outcome, clock: Clock): (r: Step)
    ensures SameButTimes(s, r.service)
    ensures Notifications(r.trace)
    ensures !Delivered(o) ==> r.service == s
    ensures Delivered(o) ==> r.service.lastPingTime == Some(clock.first)
    ensures PingFailure(o).None? && TruthyInt(o.body.value.nextPing) ==>
              r.service.nextPingTime == o.body.value.nextPing
    ensures PingFailure(o).None? && !TruthyInt(o.body.value.nextPing) ==>
              r.service.nextPingTime == Some(clock.second + s.interval)
    ensures PingFailure(o).Some? ==> r.service.nextPingTime == s.nextPingTime
    ensures PingFailure(o).None? && NoneThrow(s.callbacks.onPing) ==>
              r.trace == Calls(s.callbacks.onPing, PingEvent(o.body.value))
    ensures PingFailure(o).Some? ==> r.trace == Caught(s.callbacks.onError, PingFailure(o).value)
    ensures NoneThrow(s.callbacks.onError) ==> Resolves(r.trace)
  {
    match o
    case TransportFailure => Step(s, Caught(s.callbacks.onError, NetworkError))
    case Response(status, body) =>
      if !IsOk(status) then Step(s, Caught(s.callbacks.onError, StatusError(PingOp, status)))
      else if body.None? then Step(s, Caught(s.callbacks.onError, ParseError))
      else PingData(s, body.value, clock)
  }

  /** A completion reads only the interval and the callback lists, so it does
      not matter whether the service was armed before it. */
  lemma CompletionIgnoresLifecycle(s: Service, o: Outcome, clock: Clock, active: bool, timer: Option<TimerHandle>)
    ensures var c := PingCompletion(s, o, clock);
            PingCompletion(s.(isActive := active, timerId := timer), o, clock)
              == Step(c.service.(isActive := active, timerId := timer), c.trace)
  {
    if Delivered(o) {
      DataIgnoresLifecycle(s, o.body.value, clock, active, timer);
    }
  }

  lemma DataIgnoresLifecycle(s: Service, data: Json, clock: Clock, active: bool, timer: Option<TimerHandle>)
    ensures var c := PingData(s, data, clock);
            PingData(s.(isActive := active, timerId := timer), data, clock)
              == Step(c.service.(isActive := active, timerId := timer), c.trace)
  {
  }

  /** ping(): issue the request, then complete on the given outcome. */
  function Ping(s: Service, o: Outcome, clock: Clock): (r: Step)
    ensures SameButTimes(s, r.service)
    ensures |r.trace| > 0 && r.trace[0] == PingRequest(s) && Notifications(r.trace[1..])
    // the times move only once a 2xx body has been parsed
    ensures !Delivered(o) ==> r.service == s
    ensures Delivered(o) ==> r.service.lastPingTime == Some(clock.first)
    ensures PingFailure(o).None? && TruthyInt(o.body.value.nextPing) ==>
              r.service.nextPingTime == o.body.value.nextPing
    ensures PingFailure(o).None? && !TruthyInt(o.body.value.nextPing) ==>
              r.service.nextPingTime == Some(clock.second + s.interval)
    ensures PingFailure(o).Some? ==> r.service.nextPingTime == s.nextPingTime
    // who is told
    ensures PingFailure(o).None? && NoneThrow(s.callbacks.onPing) ==>
              r.trace == [PingRequest(s)] + Calls(s.callbacks.onPing, PingEvent(o.body.value))
    ensures PingFailure(o).Some? && NoneThrow(s.callbacks.onError) ==>
              r.trace == [PingRequest(s)] + Calls(s.callbacks.onError, ErrorEvent(PingFailure(o).value))
    // nothing escapes to the caller unless an error listener throws
    ensures NoneThrow(s.callbacks.onError) ==> Resolves(r.trace)
  {
    var c := PingCompletion(s, o, clock);
    assert ([PingRequest(s)] + c.trace)[1..] == c.trace;
    Step(c.service, [PingRequest(s)] + c.trace)
  }

  /** start() (lines 22-38): when inactive, mark active, issue the first ping
      and arm one recurring timer; `handle` is what setInterval returns. The
      trace shows the request and the timer before the response, as the
      ping's completion happens only after start() has returned. */
  function Start(s: Service, o: Outcome, clock: Clock, handle: TimerHandle): (r: Step)
    ensures s.isActive ==> r == Step(s, [])
    ensures !s.isActive ==> r.service.isActive && r.service.timerId == Some(handle)
    ensures !s.isActive ==> r.service == Ping(s, o, clock).service.(isActive := true, timerId := Some(handle))
    ensures !s.isActive ==>
              && |r.trace| >= 2
              && r.trace[0] == PingRequest(s)
              && r.trace[1] == SetInterval(handle, s.interval)
              && Notifications(r.trace[2..])
    ensures !s.isActive ==> r.trace == [PingRequest(s), SetInterval(handle, s.interval)] + Ping(s, o, clock).trace[1..]
    ensures !s.isActive ==> Fetches(r.trace) == 1 && Arms(r.trace) == 1
    ensures Valid(s) ==> Valid(r.service)
  {
    if s.isActive then Step(s, [])
    else
      var armed := s.(isActive := true, timerId := Some(handle));
      var c := PingCompletion(armed, o, clock);
      CompletionIgnoresLifecycle(s, o, clock, true, Some(handle));
      var head := [PingRequest(s), SetInterval(handle, s.interval)];
      assert (head + c.trace)[2..] == c.trace;
      CountsAppend(head, c.trace);
      NotificationsIssueNothing(c.trace);
      assert Fetches(head) == 1 && Arms(head) == 1 by {
        assert head[1..][1..] == [];
      }
      Step(c.service, head + c.trace)
  }

  /** stop() (lines 41-53). */
  function Stop(s: Service): (r: Step)
    ensures !s.isActive ==> r == Step(s, [])
    ensures s.isActive ==> r.service == s.(isActive := false, timerId := None)
    ensures s.isActive && s.timerId.Some? ==> r.trace == [ClearInterval(s.timerId.value)]
    ensures !r.service.isActive && Fetches(r.trace) == 0 && Arms(r.trace) == 0
    ensures Valid(s) ==> Valid(r.service) && r.service.timerId == None
  {
    if !s.isActive then Step(s, [])
    else
      match s.timerId
      case Some(h) => Step(s.(isActive := false, timerId := None), [ClearInterval(h)])
      case None => Step(s.(isActive := false), [])
  }

  /** The catch block of getHealth (lines 107-111): tell the error listeners
      and resolve to `null`, or reject if an error listener throws. */
  function HealthCaught(s: Service, before: seq<Effect>, err: Error): (r: Probe)
    ensures |r.trace| >= |before| && r.trace[..|before|] == before
    ensures Notifications(r.trace[|before|..])
    ensures NoneThrow(s.callbacks.onError) ==> r == Probe(before + Calls(s.callbacks.onError, ErrorEvent(err)), Some(JNull))
    ensures !NoneThrow(s.callbacks.onError) ==> r.resolved.None? && |r.trace| > 0 && r.trace[|r.trace| - 1].Rejected?
    // the same catch block as ping's: error listeners up to the first thrower,
    // whose exception rejects the call
    ensures r.trace == before + Caught(s.callbacks.onError, err)
    ensures r.resolved == (if NoneThrow(s.callbacks.onError) then Some(JNull) else None)
  {
    Probe(before + Caught(s.callbacks.onError, err), if NoneThrow(s.callbacks.onError) then Some(JNull) else None)
  }

  /** What happens once a 2xx health response has been parsed to `data`
      (lines 100-105, and the catch block for what a listener throws). */
  function HealthData(s: Service, data: Json): (r: Probe)
    ensures Notifications(r.trace)
    ensures NoneThrow(s.callbacks.onHealthUpdate) ==>
              r == Probe(Calls(s.callbacks.onHealthUpdate, HealthEvent(data)), Some(data))
    ensures !NoneThrow(s.callbacks.onHealthUpdate) && NoneThrow(s.callbacks.onError) ==> r.resolved == Some(JNull)
    ensures r.resolved.None? ==> !NoneThrow(s.callbacks.onError) && |r.trace| > 0 && r.trace[|r.trace| - 1].Rejected?
  {
    var n := Notify(s.callbacks.onHealthUpdate, HealthEvent(data));
    match n.thrown
    case None => Probe(n.trace, Some(data))
    case Some(id) => HealthCaught(s, n.trace, ListenerError(id))
  }

  /** What happens once the health fetch settles (lines 96-111). */
  function HealthCompletion(s: Service, o: Outcome): (r: Probe)
    ensures Notifications(r.trace)
    ensures HealthFailure(o).None? && NoneThrow(s.callbacks.onHealthUpdate) ==>
              r == Probe(Calls(s.callbacks.onHealthUpdate, HealthEvent(o.body.value)), Some(o.body.value))
    ensures HealthFailure(o).Some? && NoneThrow(s.callbacks.onError) ==>
              r == Probe(Calls(s.callbacks.onError, ErrorEvent(HealthFailure(o).value)), Some(JNull))
    // a throwing health listener is caught like any other failure
    ensures HealthFailure(o).None? && !NoneThrow(s.callbacks.onHealthUpdate) && NoneThrow(s.callbacks.onError) ==>
              r.resolved == Some(JNull)
    ensures r.resolved.None? ==> !NoneThrow(s.callbacks.onError) && |r.trace| > 0 && r.trace[|r.trace| - 1].Rejected?
  {
    match o
    case TransportFailure => HealthCaught(s, [], NetworkError)
    case Response(status, body) =>
      if !IsOk(status) then HealthCaught(s, [], StatusError(HealthOp, status))
      else if body.None? then HealthCaught(s, [], ParseError)
      else HealthData(s, body.value)
  }

  /** getHealth() (lines 87-111). It takes the service by value and returns
      no new one: it cannot change any state. */
  function GetHealth(s: Service, o: Outcome): (r: Probe)
    ensures |r.trace| > 0 && r.trace[0] == HealthRequest(s) && Notifications(r.trace[1..])
    ensures HealthFailure(o).None? && NoneThrow(s.callbacks.onHealthUpdate) ==>
              r == Probe([HealthRequest(s)] + Calls(s.callbacks.onHealthUpdate, HealthEvent(o.body.value)), Some(o.body.value))
    ensures HealthFailure(o).Some? && NoneThrow(s.callbacks.onError) ==>
              r == Probe([HealthRequest(s)] + Calls(s.callbacks.onError, ErrorEvent(HealthFailure(o).value)), Some(JNull))
    ensures HealthFailure(o).None? && !NoneThrow(s.callbacks.onHealthUpdate) && NoneThrow(s.callbacks.onError) ==>
              r.resolved == Some(JNull)
    ensures r.resolved.None? ==> !NoneThrow(s.callbacks.onError) && r.trace[|r.trace| - 1].Rejected?
  {
    var c := HealthCompletion(s, o);
    assert ([HealthRequest(s)] + c.trace)[1..] == c.trace;
    Probe([HealthRequest(s)] + c.trace, c.resolved)
  }

  /** onPing / onError / onHealthUpdate (lines 115-127): append to one list. */
  function OnPing(s: Service, l: Listener): (r: Service)
    ensures r.callbacks.onPing == s.callbacks.onPing + [l]
    ensures r == s.(callbacks := r.callbacks)
    ensures r.callbacks == s.callbacks.(onPing := r.callbacks.onPing)
  {
    s.(callbacks := s.callbacks.(onPing := s.callbacks.onPing + [l]))
  }

  function OnError(s: Service, l: Listener): (r: Service)
    ensures r.callbacks.onError == s.callbacks.onError + [l]
    ensures r == s.(callbacks := r.callbacks)
    ensures r.callbacks == s.callbacks.(onError := r.callbacks.onError)
  {
    s.(callbacks := s.callbacks.(onError := s.callbacks.onError + [l]))
  }

  function OnHealthUpdate(s: Service, l: Listener): (r: Service)
    ensures r.callbacks.onHealthUpdate == s.callbacks.onHealthUpdate + [l]
    ensures r == s.(callbacks := r.callbacks)
    ensures r.callbacks == s.callbacks.(onHealthUpdate := r.callbacks.onHealthUpdate)
  {
    s.(callbacks := s.callbacks.(onHealthUpdate := s.callbacks.onHealthUpdate + [l]))
  }

  /** getStatus() (lines 130-137): a snapshot by value. On a valid service
      the reported activity tells whether a recurring timer is held. */
  function GetStatus(s: Service): (r: Status)
    ensures Valid(s) ==> (r.isActive <==> s.timerId.Some?)
  {
    Status(s.isActive, s.interval, s.lastPingTime, s.nextPingTime)
  }
}

=== FILE: listeners.dfy ===
/**
 The callback lists of the service (keepalive.js lines 12-16) and how a list
 is notified: `list.forEach(callback => callback(x))`, which calls each
 callback in registration order and stops at the first one that throws.
 */
module Listeners {
  import opened Wrappers
  import opened Events

  /** The three independent callback lists; insertion order is invocation order. */
  datatype Callbacks = Callbacks(onPing: seq<Listener>, onError: seq<Listener>, onHealthUpdate: seq<Listener>)

  /** The result of one forEach: the invocations made, and the listener whose
      exception escaped the loop, if any. */
  datatype Notified = Notified(trace: seq<Effect>, thrown: Option<ListenerId>)

  predicate NoneThrow(ls: seq<Listener>) {
    forall k :: 0 <= k < |ls| ==> !ls[k].throws
  }

  /** Reference reading of "every listener once, in registration order". */
  function Calls(ls: seq<Listener>, e: Event): seq<Effect> {
    seq(|ls|, k requires 0 <= k < |ls| => Invoke(ls[k].id, e))
  }

  /** The calls to a non-empty list are the call to its head, then the rest. */
  lemma CallsUnfold(ls: seq<Listener>, e: Event)
    requires ls != []
    ensures Calls(ls, e) == [Invoke(ls[0].id, e)] + Calls(ls[1..], e)
  {
  }

  /** Prepending a listener that does not throw keeps a prefix free of throwers. */
  lemma NoneThrowCons(ls: seq<Listener>, m: nat)
    requires ls != [] && !ls[0].throws && m < |ls| && NoneThrow(ls[1..][..m])
    ensures NoneThrow(ls[..m + 1])
  {
    assert ls[..m + 1] == [ls[0]] + ls[1..][..m];
  }

  /** forEach over a callback list with the argument `e`. */
  function Notify(ls: seq<Listener>, e: Event): (r: Notified)
    ensures |r.trace| <= |ls|
    ensures forall k :: 0 <= k < |r.trace| ==> r.trace[k] == Invoke(ls[k].id, e)
    ensures r.thrown.None? <==> NoneThrow(ls)
    ensures r.thrown.None? ==> r.trace == Calls(ls, e)
    ensures Resolves(r.trace)
    ensures r.thrown.Some? ==>
              && 0 < |r.trace|
              && ls[|r.trace| - 1].throws
              && r.thrown.value == ls[|r.trace| - 1].id
              && NoneThrow(ls[..|r.trace| - 1])
    decreases |ls|
  {
    if ls == [] then Notified([], None)
    else
      var call := Invoke(ls[0].id, e);
      if ls[0].throws then Notified([call], Some(ls[0].id))
      else
        var rest := Notify(ls[1..], e);
        CallsUnfold(ls, e);
        if rest.thrown.Some? then
          NoneThrowCons(ls, |rest.trace| - 1);
          Notified([call] + rest.trace, rest.thrown)
        else
          Notified([call] + rest.trace, rest.thrown)
  }

  /** forEach runs exactly up to and including the first listener that throws. */
  lemma {:induction false} NotifyStopsAtFirstThrower(before: seq<Listener>, l: Listener, after: seq<Listener>, e: Event)
    requires NoneThrow(before) && l.throws
    ensures Notify(before + [l] + after, e) == Notified(Calls(before + [l], e), Some(l.id))
    decreases |before|
  {
    var ls := before + [l] + after;
    if before == [] {
      assert ls[0] == l;
    } else {
      assert ls[1..] == before[1..] + [l] + after;
      NotifyStopsAtFirstThrower(before[1..], l, after, e);
      CallsUnfold(before + [l], e);
      assert (before + [l])[1..] == before[1..] + [l];
    }
  }

  /** A catch block that calls every error listener with `err`: no exception
      escapes unless an error listener itself throws. */
  function Caught(errorListeners: seq<Listener>, err: Error): (r: seq<Effect>)
    ensures Notifications(r)
    ensures NoneThrow(errorListeners) ==> r == Calls(errorListeners, ErrorEvent(err)) && Resolves(r)
    // otherwise the listeners up to the first thrower are told, and its
    // exception rejects the operation
    ensures !NoneThrow(errorListeners) ==>
              && 2 <= |r| <= |errorListeners| + 1
              && errorListeners[|r| - 2].throws
              && NoneThrow(errorListeners[..|r| - 2])
              && r == Calls(errorListeners[..|r| - 1], ErrorEvent(err))
                      + [Rejected(ListenerError(errorListeners[|r| - 2].id))]
  {
    var n := Notify(errorListeners, ErrorEvent(err));
    match n.thrown
    case None => n.trace
    case Some(id) =>
      assert n.trace == Calls(errorListeners[..|n.trace|], ErrorEvent(err));
      n.trace + [Rejected(ListenerError(id))]
  }
}

=== FILE: page.dfy ===
/**
 How the page drives the service: the recurring timer's callback (keepalive.js
 lines 35-37), the visibility-change rule (lines 157-168), and arbitrary runs
 of such stimuli, over which the timer bookkeeping is proved.
 */
module Page {
  import opened Wrappers
  import opened Events
  import opened Listeners
  import opened KeepAlive

  /** The recurring callback of the timer `handle` fires. A cleared timer never
      fires, so a handle other than the held one leaves everything as it is. */
  function FireTimer(s: Service, handle: TimerHandle, o: Outcome, clock: Clock): (r: Step)
    ensures s.timerId == Some(handle) ==> r == Ping(s, o, clock)
    ensures s.timerId != Some(handle) ==> r == Step(s, [])
    ensures Fetches(r.trace) <= 1 && Arms(r.trace) == 0
  {
    if s.timerId == Some(handle) then
      var p := Ping(s, o, clock);
      assert p.trace == [p.trace[0]] + p.trace[1..];
      CountsAppend([p.trace[0]], p.trace[1..]);
      NotificationsIssueNothing(p.trace[1..]);
      p
    else Step(s, [])
  }

  /** The visibilitychange listener: when the page is visible again, start an
      inactive service, otherwise ping at once. */
  function OnVisibilityChange(s: Service, hidden: bool, o: Outcome, clock: Clock, handle: TimerHandle): (r: Step)
    ensures hidden ==> r == Step(s, [])
    ensures !hidden ==> r.service.isActive
    ensures !hidden && !s.isActive ==> r == Start(s, o, clock, handle)
    ensures !hidden && s.isActive ==> r == Ping(s, o, clock)
    ensures !hidden && s.isActive ==>
              && r.service.timerId == s.timerId
              && Fetches(r.trace) == 1 && Arms(r.trace) == 0
    ensures Valid(s) ==> Valid(r.service)
  {
    if hidden then Step(s, [])
    else if !s.isActive then Start(s, o, clock, handle)
    else
      var p := Ping(s, o, clock);
      assert p.trace == [p.trace[0]] + p.trace[1..];
      CountsAppend([p.trace[0]], p.trace[1..]);
      NotificationsIssueNothing(p.trace[1..]);
      p
  }

  datatype Kind = PingListener | ErrorListener | HealthListener

  /** One stimulus from the page or from the clock. */
  datatype Command =
    | StartCmd(o: Outcome, clock: Clock, handle: TimerHandle)
    | StopCmd
    | PingCmd(o: Outcome, clock: Clock)
    | HealthCmd(o: Outcome)
    | RegisterCmd(kind: Kind, listener: Listener)
    | FireCmd(handle: TimerHandle, o: Outcome, clock: Clock)
    | VisibilityCmd(hidden: bool, o: Outcome, clock: Clock, handle: TimerHandle)

  function Register(s: Service, kind: Kind, l: Listener): Service {
    match kind
    case PingListener => OnPing(s, l)
    case ErrorListener => OnError(s, l)
    case HealthListener => OnHealthUpdate(s, l)
  }

  function Apply(s: Service, c: Command): Step {
    match c
    case StartCmd(o, clock, handle) => Start(s, o, clock, handle)
    case StopCmd => Stop(s)
    case PingCmd(o, clock) => Ping(s, o, clock)
    case HealthCmd(o) => Step(s, GetHealth(s, o).trace)
    case RegisterCmd(kind, l) => Step(Register(s, kind, l), [])
    case FireCmd(handle, o, clock) => FireTimer(s, handle, o, clock)
    case VisibilityCmd(hidden, o, clock, handle) => OnVisibilityChange(s, hidden, o, clock, handle)
  }

  /** Applies the commands in order, concatenating their traces. */
  function Run(s: Service, cs: seq<Command>): Step
    decreases |cs|
  {
    if cs == [] then Step(s, [])
    else
      var a := Apply(s, cs[0]);
      var b := Run(a.service, cs[1..]);
      Step(b.service, a.trace + b.trace)
  }

  /** The timers still armed after a trace, starting from the set `live`. */
  function LiveAfter(live: set<TimerHandle>, t: seq<Effect>): set<TimerHandle>
    decreases |t|
  {
    if t == [] then live
    else
      var next := match t[0]
        case SetInterval(h, _) => live + {h}
        case ClearInterval(h) => live - {h}
        case _ => live;
      LiveAfter(next, t[1..])
  }

  function Held(timerId: Option<TimerHandle>): set<TimerHandle> {
    match timerId
    case None => {}
    case Some(h) => {h}
  }

  lemma {:induction false} LiveAfterAppend(live: set<TimerHandle>, a: seq<Effect>, b: seq<Effect>)
    ensures LiveAfter(live, a + b) == LiveAfter(LiveAfter(live, a), b)
    decreases |a|
  {
    if a == [] {
      assert a + b == b;
    } else {
      assert (a + b)[1..] == a[1..] + b;
      var next := match a[0]
        case SetInterval(h, _) => live + {h}
        case ClearInterval(h) => live - {h}
        case _ => live;
      LiveAfterAppend(next, a[1..], b);
    }
  }

  lemma {:induction false} NotificationsKeepLive(live: set<TimerHandle>, t: seq<Effect>)
    requires Notifications(t)
    ensures LiveAfter(live, t) == live
    decreases |t|
  {
    if t != [] {
      assert Notifications(t[1..]) by {
        forall k | 0 <= k < |t[1..]| ensures t[1..][k].Invoke? || t[1..][k].Rejected? {
          assert t[1..][k] == t[k + 1];
        }
      }
      NotificationsKeepLive(live, t[1..]);
    }
  }

  /** A ping's trace arms and clears nothing. */
  lemma PingKeepsLive(live: set<TimerHandle>, s: Service, o: Outcome, clock: Clock)
    ensures LiveAfter(live, Ping(s, o, clock).trace) == live
  {
    var t := Ping(s, o, clock).trace;
    assert t == [t[0]] + t[1..];
    LiveAfterAppend(live, [t[0]], t[1..]);
    NotificationsKeepLive(live, t[1..]);
  }

  lemma StartKeepsOneTimer(s: Service, o: Outcome, clock: Clock, handle: TimerHandle)
    requires Valid(s)
    ensures LiveAfter(Held(s.timerId), Start(s, o, clock, handle).trace) == Held(Start(s, o, clock, handle).service.timerId)
  {
    if !s.isActive {
      var t := Start(s, o, clock, handle).trace;
      assert t == t[..2] + t[2..];
      var head := t[..2];
      assert head[1..][1..] == [];
      assert LiveAfter({}, head) == LiveAfter({}, head[1..]) == {handle};
      LiveAfterAppend({}, head, t[2..]);
      NotificationsKeepLive({handle}, t[2..]);
    }
  }

  /** One command keeps the invariant, and the timers it leaves armed are
      exactly the one the service holds. */
  lemma ApplyKeepsOneTimer(s: Service, c: Command)
    requires Valid(s)
    ensures Valid(Apply(s, c).service)
    ensures LiveAfter(Held(s.timerId), Apply(s, c).trace) == Held(Apply(s, c).service.timerId)
  {
    var live := Held(s.timerId);
    match c
    case StartCmd(o, clock, handle) =>
      StartKeepsOneTimer(s, o, clock, handle);
    case StopCmd =>
    case PingCmd(o, clock) =>
      PingKeepsLive(live, s, o, clock);
    case HealthCmd(o) =>
      var t := GetHealth(s, o).trace;
      assert t == [t[0]] + t[1..];
      LiveAfterAppend(live, [t[0]], t[1..]);
      NotificationsKeepLive(live, t[1..]);
    case RegisterCmd(kind, l) =>
    case FireCmd(handle, o, clock) =>
      if s.timerId == Some(handle) {
        PingKeepsLive(live, s, o, clock);
      }
    case VisibilityCmd(hidden, o, clock, handle) =>
      if !hidden {
        if !s.isActive {
          StartKeepsOneTimer(s, o, clock, handle);
        } else {
          PingKeepsLive(live, s, o, clock);
        }
      }
  }

  /** Over any run: the invariant holds, and the timers armed and not yet
      cleared are exactly the one the service holds. */
  lemma {:induction false} RunKeepsOneTimer(s: Service, cs: seq<Command>)
    requires Valid(s)
    ensures Valid(Run(s, cs).service)
    ensures LiveAfter(Held(s.timerId), Run(s, cs).trace) == Held(Run(s, cs).service.timerId)
    decreases |cs|
  {
    if cs != [] {
      var a := Apply(s, cs[0]);
      ApplyKeepsOneTimer(s, cs[0]);
      RunKeepsOneTimer(a.service, cs[1..]);
      LiveAfterAppend(Held(s.timerId), a.trace, Run(a.service, cs[1..]).trace);
    }
  }

  /** From construction, whatever the page does, at most one recurring timer is
      ever armed at a time, and it is armed exactly while the service is active. */
  lemma AtMostOneTimer(config: Config, origin: string, cs: seq<Command>)
    ensures var r := Run(New(config, origin), cs);
            && |LiveAfter({}, r.trace)| <= 1
            && (r.service.isActive <==> |LiveAfter({}, r.trace)| == 1)
  {
    RunKeepsOneTimer(New(config, origin), cs);
  }
}

=== FILE: properties.dfy ===
/**
 Properties that relate several calls of the keep-alive service: lifecycle
 idempotence, the timing fallback, the order in which listeners are told, the
 error paths, and the end-to-end schedule of one session.
 */
module KeepAliveProperties {
  import opened Wrappers
  import opened Events
  import opened Listeners
  import opened KeepAlive
  import opened Page

  /** Calling start twice issues one immediate ping and arms one timer. */
  lemma StartTwiceIsOneStart(s: Service, o1: Outcome, c1: Clock, h1: TimerHandle, o2: Outcome, c2: Clock, h2: TimerHandle)
    requires !s.isActive
    ensures var a := Start(s, o1, c1, h1);
            var b := Start(a.service, o2, c2, h2);
            && b == Step(a.service, [])
            && Fetches(a.trace + b.trace) == 1
            && Arms(a.trace + b.trace) == 1
            && b.service.timerId == Some(h1)
  {
    var a := Start(s, o1, c1, h1);
    assert a.trace + [] == a.trace;
  }

  /** start then stop returns to an inactive, timer-free service that differs
      from the original only in what the first ping recorded; stop clears
      exactly the timer start armed. */
  lemma StartThenStop(s: Service, o: Outcome, clock: Clock, handle: TimerHandle)
    requires Valid(s) && !s.isActive
    ensures var a := Start(s, o, clock, handle);
            var b := Stop(a.service);
            && b.service == Ping(s, o, clock).service
            && !b.service.isActive && b.service.timerId == None
            && b.trace == [ClearInterval(handle)]
            && LiveAfter({}, a.trace + b.trace) == {}
  {
    var a := Start(s, o, clock, handle);
    StartKeepsOneTimer(s, o, clock, handle);
    LiveAfterAppend({}, a.trace, [ClearInterval(handle)]);
    assert [ClearInterval(handle)][1..] == [];
  }

  /** stop is idempotent. */
  lemma StopTwiceIsOneStop(s: Service)
    ensures Stop(Stop(s).service) == Step(Stop(s).service, [])
  {
  }

  /** When the response gives no usable hint, the next ping is expected one
      interval after the second clock reading, so one interval after the
      recorded ping time up to the gap between the two readings. */
  lemma FallbackWithinTolerance(s: Service, o: Outcome, clock: Clock)
    requires PingFailure(o).None? && !TruthyInt(o.body.value.nextPing)
    ensures var r := Ping(s, o, clock).service;
            && r.lastPingTime.Some? && r.nextPingTime.Some?
            && r.nextPingTime.value - r.lastPingTime.value == s.interval + (clock.second - clock.first)
            && (clock.first == clock.second ==> r.nextPingTime.value == r.lastPingTime.value + s.interval)
  {
  }

  /** A `nextPing` of 0 is falsy and falls back like a missing one. */
  lemma ZeroHintFallsBack(s: Service, clock: Clock, rest: string)
    ensures Ping(s, Response(200, Some(JValue(Some(0), rest))), clock).service.nextPingTime
            == Some(clock.second + s.interval)
  {
  }

  /** A `null` ping body is stamped before it is dereferenced: the ping time
      moves, yet the error listeners are told of the failure. */
  lemma NullPingBodyStampsAndFails(s: Service, status: int, clock: Clock)
    requires IsOk(status) && NoneThrow(s.callbacks.onError)
    ensures var r := Ping(s, Response(status, Some(JNull)), clock);
            && r.service == s.(lastPingTime := Some(clock.first))
            && r.trace == [PingRequest(s)] + Calls(s.callbacks.onError, ErrorEvent(NullBodyError))
  {
  }

  /** A throwing ping listener cuts the ping listeners short and its
      exception goes to the catch block (which may itself reject); the ping
      times are already updated. */
  lemma ThrowingPingListener(s: Service, o: Outcome, clock: Clock, before: seq<Listener>, l: Listener, after: seq<Listener>)
    requires PingFailure(o).None?
    requires s.callbacks.onPing == before + [l] + after
    requires NoneThrow(before) && l.throws
    ensures var r := Ping(s, o, clock);
            && r.service.lastPingTime == Some(clock.first)
            && r.trace == [PingRequest(s)] + Calls(before + [l], PingEvent(o.body.value))
                          + Caught(s.callbacks.onError, ListenerError(l.id))
  {
    NotifyStopsAtFirstThrower(before, l, after, PingEvent(o.body.value));
  }

  /** An error listener that throws escapes the catch block: the error
      listeners up to it are told, and the ping's promise rejects with its
      exception. */
  lemma ThrowingErrorListenerRejects(s: Service, o: Outcome, clock: Clock, before: seq<Listener>, l: Listener, after: seq<Listener>)
    requires PingFailure(o).Some?
    requires s.callbacks.onError == before + [l] + after
    requires NoneThrow(before) && l.throws
    ensures Ping(s, o, clock).trace
            == [PingRequest(s)] + Calls(before + [l], ErrorEvent(PingFailure(o).value)) + [Rejected(ListenerError(l.id))]
  {
    NotifyStopsAtFirstThrower(before, l, after, ErrorEvent(PingFailure(o).value));
  }

  /** A health listener that throws on a 2xx response cuts the health
      listeners short and its exception goes to the catch block: getHealth
      resolves to `null`, unless an error listener throws in turn. */
  lemma ThrowingHealthListener(s: Service, o: Outcome, before: seq<Listener>, l: Listener, after: seq<Listener>)
    requires HealthFailure(o).None?
    requires s.callbacks.onHealthUpdate == before + [l] + after
    requires NoneThrow(before) && l.throws
    ensures GetHealth(s, o).trace
            == [HealthRequest(s)] + Calls(before + [l], HealthEvent(o.body.value))
               + Caught(s.callbacks.onError, ListenerError(l.id))
    ensures GetHealth(s, o).resolved == (if NoneThrow(s.callbacks.onError) then Some(JNull) else None)
  {
    NotifyStopsAtFirstThrower(before, l, after, HealthEvent(o.body.value));
    assert HealthCompletion(s, o) == HealthData(s, o.body.value);
  }

  /** A failed health response goes to the catch block with its classified
      error: the error listeners are told up to the first that throws, and
      the call resolves to `null` only when none of them throws. */
  lemma FailedHealthGoesToCatch(s: Service, o: Outcome)
    requires HealthFailure(o).Some?
    ensures GetHealth(s, o).trace == [HealthRequest(s)] + Caught(s.callbacks.onError, HealthFailure(o).value)
    ensures GetHealth(s, o).resolved == (if NoneThrow(s.callbacks.onError) then Some(JNull) else None)
  {
  }

  /** A listener registered with onPing is told of a successful ping after
      every listener registered before it. */
  lemma RegisteredListenerIsCalledLast(s: Service, l: Listener, o: Outcome, clock: Clock)
    requires PingFailure(o).None? && NoneThrow(s.callbacks.onPing) && !l.throws
    ensures Ping(OnPing(s, l), o, clock).trace == Ping(s, o, clock).trace + [Invoke(l.id, PingEvent(o.body.value))]
  {
  }

  /** Registering A, B, A tells A, B, A, in that order; no deduplication. */
  lemma RegistrationOrderABA(s: Service, a: Listener, b: Listener, o: Outcome, clock: Clock)
    requires s.callbacks.onPing == [] && PingFailure(o).None? && !a.throws && !b.throws
    ensures var e := PingEvent(o.body.value);
            Ping(OnPing(OnPing(OnPing(s, a), b), a), o, clock).trace
              == [PingRequest(s), Invoke(a.id, e), Invoke(b.id, e), Invoke(a.id, e)]
  {
  }

  /** Registering with one list leaves the other two, and every other field,
      as they were. */
  lemma RegistrationTouchesOneList(s: Service, kind: Kind, l: Listener)
    ensures var r := Register(s, kind, l);
            && r == s.(callbacks := r.callbacks)
            && (kind == PingListener <==> r.callbacks.onPing != s.callbacks.onPing)
            && (kind == ErrorListener <==> r.callbacks.onError != s.callbacks.onError)
            && (kind == HealthListener <==> r.callbacks.onHealthUpdate != s.callbacks.onHealthUpdate)
  {
  }

  /** getHealth resolves to the payload on success and to `null` on failure;
      a successful `null` payload resolves to the same `null`, so the caller
      cannot tell it from a failure. */
  lemma HealthNullIsAmbiguous(s: Service, status: int, o: Outcome)
    requires IsOk(status) && NoneThrow(s.callbacks.onHealthUpdate)
    requires HealthFailure(o).Some? && NoneThrow(s.callbacks.onError)
    ensures GetHealth(s, Response(status, Some(JNull))).resolved == GetHealth(s, o).resolved == Some(JNull)
  {
  }

  /** getHealth's failure path tells only the error listeners; its success
      path tells only the health listeners. */
  lemma HealthTellsOneList(s: Service, o: Outcome)
    requires NoneThrow(s.callbacks.onHealthUpdate) && NoneThrow(s.callbacks.onError)
    ensures var t := GetHealth(s, o).trace;
            forall k :: 1 <= k < |t| ==>
              if HealthFailure(o).Some? then t[k].Invoke? && t[k].event.ErrorEvent?
              else t[k].Invoke? && t[k].event.HealthEvent?
  {
  }

  /** The status after starting an inactive service on a successful ping. */
  lemma StatusAfterSuccessfulStart(s: Service, o: Outcome, clock: Clock, handle: TimerHandle)
    requires !s.isActive && PingFailure(o).None?
    ensures var st := GetStatus(Start(s, o, clock, handle).service);
            && st.isActive
            && st.interval == s.interval
            && st.lastPingTime == Some(clock.first)
            && st.nextPingTime == Some(IntOr(o.body.value.nextPing, clock.second + s.interval))
  {
  }

  /** A ping that gets no parsed 2xx body leaves the status snapshot as it was. */
  lemma FailedPingKeepsStatus(s: Service, o: Outcome, clock: Clock)
    requires !Delivered(o)
    ensures GetStatus(Ping(s, o, clock).service) == GetStatus(s)
  {
  }

  /** Stopping changes only the reported activity: the interval and the two
      ping times are still reported as they were. */
  lemma StatusAfterStop(s: Service)
    ensures GetStatus(Stop(s).service) == GetStatus(s).(isActive := false)
  {
  }

  /** A ping whose 2xx body was parsed keeps the reported activity and
      interval, and reports the first clock reading as the last ping time,
      whether or not the service is active. */
  lemma StatusAfterDeliveredPing(s: Service, o: Outcome, clock: Clock)
    requires Delivered(o)
    ensures var st := GetStatus(Ping(s, o, clock).service);
            && st.isActive == s.isActive
            && st.interval == s.interval
            && st.lastPingTime == Some(clock.first)
  {
  }

  /** One session: construct with a 1000 ms interval, start, let the timer
      fire once, stop, and any later firing of the cleared timer does nothing. */
  lemma OneSession(origin: string, ok: Outcome, h: TimerHandle, later: Outcome)
    requires PingFailure(ok).None?
    ensures var s0 := New(Config(Some(1000), Some("http://x")), origin);
            var a := Start(s0, ok, Clock(0, 0), h);
            var b := FireTimer(a.service, h, ok, Clock(1000, 1000));
            var c := Stop(b.service);
            var d := FireTimer(c.service, h, later, Clock(2000, 2000));
            && s0.pingEndpoint == "http://x/api/ping"
            && a.trace[0] == Fetch(Post, "http://x/api/ping", JsonContentType)
            && a.trace[1] == SetInterval(h, 1000)
            && Fetches(a.trace) == 1 && Fetches(b.trace) == 1
            && b.service.lastPingTime == Some(1000)
            && c.trace == [ClearInterval(h)]
            && d == Step(c.service, [])
  {
  }
}

=== FILE: wrappers.dfy ===
/** The optional-value datatype used for JavaScript's `null`/`undefined` slots. */
module Wrappers {

  datatype Option<+T> = None | Some(value: T)
}
